=== FILE: README.md ===
# BluetoothChat connection manager, modelled in Dafny

`BluetoothChatManager` keeps one peer-to-peer chat connection over Bluetooth RFCOMM.
It listens for inbound connections (an `AcceptThread`), dials outbound ones (a
`ConnectionThread`), and turns whichever connection succeeds into the one active
session (a `ConnectionFinishedThread`). Every state change is reported to a UI
`Handler` as a message.

This project models the manager as a sequential state machine. Each `synchronized`
method, each failure handler and each worker callback is one atomic transition on an
immutable `Manager` record. The record holds:

- `state`: one of `Null`, `Listening`, `Connecting`, `Connected`, published as the
  codes 100 to 103;
- the three optional worker references: `connector`, `listener` and `session`;
- `cancelled`: the workers whose `cancel()` has run;
- `closed`: the sockets that have been closed;
- `events`: the append-only log of messages sent to the handler. These are
  `StateChange`, `DeviceName`, `Toast` and `Written`;
- `next`: the id counter. Workers, and the sockets they create, get fresh ids from it.

A worker's constructor sets `state` in the code. That effect is folded into the
transition that creates the worker. A new listener sets LISTENING, a new connector
sets CONNECTING and a new session sets CONNECTED. `updateState` appends
`StateChange(state)` for the state current at the moment it is called.

Modules and files:

- `options.dfy`, module `Options`: the optional type used for nullable references.
- `chat_states.dfy`, module `ChatStates`: the four states and their integer codes.
- `chat_manager.dfy`, module `ChatManager`: the record, the invariant `Inv`,
  `start`, `connect`, `onConnected`, `stop`, `writeOutputStream` and the two
  failure handlers.
- `workers.dfy`, module `Workers`: the connector's success and failure outcomes and
  the listener's accept dispatch.
- `lifecycle.dfy`, module `Lifecycle`: sequences of commands and callbacks, and
  the properties every reachable manager has.
- `scenarios.dfy`, module `Scenarios`: properties that relate several transitions,
  including the quirks the code has.

`Inv` is the invariant every transition preserves. It has three parts:

- CONNECTED holds exactly when a session is referenced. Then no listener and no
  connector is referenced.
- A connector is referenced only in CONNECTING, and LISTENING always has a listener.
- The referenced workers are distinct, were issued, and are not cancelled. The last
  `StateChange` sent to the handler reports the current state.

Under `Inv` the unguarded dereference in `writeOutputStream` cannot fail.
`WriteOutputStream` returns an `Outcome` whose `NullDereference` case stands for the
`NullPointerException` the code would throw. `Inv` rules that case out.

## Model

| member | source | states |
|---|---|---|
| ChatStates.Code | app/src/main/java/ua/vladprischepa/bluetoothchat/BluetoothChatManager.java:26-29 | The codes are exactly the published constants: NULL 100, LISTENING 101, CONNECTING 102, CONNECTED 103 |
| ChatStates.FromCode | app/src/main/java/ua/vladprischepa/bluetoothchat/BluetoothChatManager.java:26-29 | A code names a state exactly when it lies in 100..103 |
| ChatStates.CodeRoundTrip | app/src/main/java/ua/vladprischepa/bluetoothchat/BluetoothChatManager.java:26-29 | Reading back a state's code gives the state; a code reads back to a state iff it is that state's code |
| ChatManager.Init | app/src/main/java/ua/vladprischepa/bluetoothchat/BluetoothChatManager.java:55-60 | A new manager is NULL with no workers and no messages, and satisfies the invariant |
| ChatManager.GetState | app/src/main/java/ua/vladprischepa/bluetoothchat/BluetoothChatManager.java:62-64 | The published code is in 100..103 and reads back to the current state |
| ChatManager.CancelConnector | app/src/main/java/ua/vladprischepa/bluetoothchat/BluetoothChatManager.java:268-274 | The connector's id is marked cancelled, its client socket is closed and the reference is dropped. Nothing else changes |
| ChatManager.CancelSession | app/src/main/java/ua/vladprischepa/bluetoothchat/BluetoothChatManager.java:323-329 | The session's id is marked cancelled, its socket is closed and the reference is dropped. Nothing else changes |
| ChatManager.CancelListener | app/src/main/java/ua/vladprischepa/bluetoothchat/BluetoothChatManager.java:378-384 | The listener's id is marked cancelled, its server socket is closed and the reference is dropped. Nothing else changes |
| ChatManager.CancelAll | app/src/main/java/ua/vladprischepa/bluetoothchat/BluetoothChatManager.java:119-135 | All three references end up null; exactly the held workers are cancelled and exactly their sockets closed. State, log and counter are untouched |
| ChatManager.SpawnListener | app/src/main/java/ua/vladprischepa/bluetoothchat/BluetoothChatManager.java:336-344 | The new listener's id and server socket are distinct freshly issued ids, and the state is LISTENING. No other reference, set or event changes |
| ChatManager.SpawnConnector | app/src/main/java/ua/vladprischepa/bluetoothchat/BluetoothChatManager.java:235-243 | The new connector dials the given device; its id and client socket are distinct freshly issued ids, and the state is CONNECTING. Nothing else changes |
| ChatManager.SpawnSession | app/src/main/java/ua/vladprischepa/bluetoothchat/BluetoothChatManager.java:283-296 | The new session owns the given socket under a freshly issued id, and the state is CONNECTED. Nothing else changes |
| ChatManager.UpdateState | app/src/main/java/ua/vladprischepa/bluetoothchat/BluetoothChatManager.java:66-68 | Only the log changes: it grows, and its last announced state is the current state |
| ChatManager.Start | app/src/main/java/ua/vladprischepa/bluetoothchat/BluetoothChatManager.java:70-90 | Connector and session end up null, and exactly those two are cancelled and their sockets closed. A live listener keeps its id, and the state is then unchanged. With no listener, a fresh one is made, with a freshly issued id and server socket, and the state is LISTENING. One StateChange of the resulting state is sent. The invariant is preserved |
| ChatManager.Connect | app/src/main/java/ua/vladprischepa/bluetoothchat/BluetoothChatManager.java:92-114 | The listener is untouched and any session is cancelled. The old connector is cancelled only if the state was CONNECTING. Exactly the sockets of the workers it cancels are closed. A fresh connector for the device is installed, the state is CONNECTING, and exactly StateChange(CONNECTING) is sent. The invariant is preserved |
| ChatManager.OnConnected | app/src/main/java/ua/vladprischepa/bluetoothchat/BluetoothChatManager.java:116-149 | The state is CONNECTED and only a fresh session over the given socket is referenced. Every previously held worker is cancelled and its socket closed. DeviceName then StateChange(CONNECTED) are sent. The invariant is preserved |
| ChatManager.Stop | app/src/main/java/ua/vladprischepa/bluetoothchat/BluetoothChatManager.java:151-172 | All three references are null, every held worker is cancelled and its socket closed, and no new id is issued. The state is NULL and StateChange(NULL) is the last message. The invariant is preserved |
| ChatManager.WriteOutputStream | app/src/main/java/ua/vladprischepa/bluetoothchat/BluetoothChatManager.java:180-190 | Outside CONNECTED nothing changes. Otherwise, at most one Written(bytes) is appended and nothing else changes. It is appended exactly when the write succeeds on an open socket. The null dereference happens exactly when the state is CONNECTED with no session, so under the invariant it never happens |
| ChatManager.RestartAfterFailure | app/src/main/java/ua/vladprischepa/bluetoothchat/BluetoothChatManager.java:195-209 | The shared body of both failure handlers: Toast, StateChange(NULL), then the effect of start on the NULL state. Connector and session are cancelled and their sockets closed. A live listener is kept and the state stays NULL. Otherwise a fresh listener, with a freshly issued id and server socket, is made and the state is LISTENING |
| ChatManager.OnConnectionFailed | app/src/main/java/ua/vladprischepa/bluetoothchat/BluetoothChatManager.java:195-209 | Sends Toast("Unable to connect device"), StateChange(NULL) and StateChange of the final state. It cancels the connector and session and closes their sockets. A live listener is kept, no id is issued and the state stays NULL. Otherwise a fresh listener, with a freshly issued id and server socket, is made and the state is LISTENING |
| ChatManager.OnConnectionLost | app/src/main/java/ua/vladprischepa/bluetoothchat/BluetoothChatManager.java:214-228 | The same, with Toast("Device connection was lost") |
| Workers.ConnectorSucceeded | app/src/main/java/ua/vladprischepa/bluetoothchat/BluetoothChatManager.java:261-265 | The connector reference is nulled without cancelling it. The dialled socket becomes a fresh session in CONNECTED. Only the listener and the old session are cancelled. DeviceName then StateChange(CONNECTED) are sent |
| Workers.ConnectorFailed | app/src/main/java/ua/vladprischepa/bluetoothchat/BluetoothChatManager.java:249-258 | The connector's socket is closed, then the "Unable to connect device" failure handler runs, with all of its effects: toast, NULL, then a restart that cancels the connector and session, closes their sockets, and keeps a live listener or makes a fresh one on a freshly issued server socket |
| Workers.AcceptDispatch | app/src/main/java/ua/vladprischepa/bluetoothchat/BluetoothChatManager.java:357-373 | The accepted socket is promoted to the session, with onConnected's messages, iff the state is LISTENING or CONNECTING; then every held worker is cancelled, its socket closed, and the session gets a freshly issued id. In NULL or CONNECTED only the socket is closed |
| Lifecycle.Step | app/src/main/java/ua/vladprischepa/bluetoothchat/BluetoothChatManager.java:299-312 | A step is any call, dial outcome, accept, or read failure; a read failure runs onConnectionLost. Every step keeps the invariant and never dereferences a missing session. The message log and cancelled set only grow |
| Lifecycle.Run | app/src/main/java/ua/vladprischepa/bluetoothchat/BluetoothChatManager.java:46-51 | Any sequence of steps from a consistent manager keeps the invariant, never hits the null dereference, and only extends the log |
| Lifecycle.WriteKeepsWrites | app/src/main/java/ua/vladprischepa/bluetoothchat/BluetoothChatManager.java:185-189 | A write from a consistent manager never fails on the session dereference, and it appends Written only while CONNECTED is the last announced state |
| Lifecycle.RunKeepsWrites | app/src/main/java/ua/vladprischepa/bluetoothchat/BluetoothChatManager.java:180-190 | Along any run of atomic steps, every Written message follows a StateChange(CONNECTED) with no other StateChange in between |
| Lifecycle.ReachableManagers | app/src/main/java/ua/vladprischepa/bluetoothchat/BluetoothChatManager.java:55-60 | Every run from construction ends in a consistent manager, never hitting the null dereference, and every Written message in its log follows StateChange(CONNECTED) |
| Scenarios.StopIdempotent | app/src/main/java/ua/vladprischepa/bluetoothchat/BluetoothChatManager.java:151-172 | A second stop leaves state, references, cancelled set and closed sockets as the first left them; it only sends StateChange(NULL) again |
| Scenarios.StartReusesListener | app/src/main/java/ua/vladprischepa/bluetoothchat/BluetoothChatManager.java:84-87 | Calling start while LISTENING keeps the same listener, issues no id and stays LISTENING |
| Scenarios.ConnectNeverLeaksConnector | app/src/main/java/ua/vladprischepa/bluetoothchat/BluetoothChatManager.java:95-101 | In a consistent manager a connector exists only in CONNECTING, so connect always cancels the connector it replaces |
| Scenarios.ReadFailureRestartsListening | app/src/main/java/ua/vladprischepa/bluetoothchat/BluetoothChatManager.java:214-228 | A lost connection cancels the session and comes back LISTENING on a fresh listener. Toast, StateChange(NULL), StateChange(LISTENING) are sent |
| Scenarios.DialFailureStrandsListener | app/src/main/java/ua/vladprischepa/bluetoothchat/BluetoothChatManager.java:203-208 | A dial started from LISTENING that fails leaves the listener live but the state NULL. Accepted sockets are then closed, and start keeps NULL |
| Scenarios.CancelledConnectorStillReportsFailure | app/src/main/java/ua/vladprischepa/bluetoothchat/BluetoothChatManager.java:249-258 | A connector cancelled by a second connect still runs the failure handler when its dial fails. That cancels the replacement connector and sends the failure toast |
| Scenarios.AcceptWhileDiallingStrandsNull | app/src/main/java/ua/vladprischepa/bluetoothchat/BluetoothChatManager.java:357-363 | A socket accepted while CONNECTING becomes the session and cancels the connector. That connector's failing dial cancels the session, whose failing read then leaves NULL with a live listener after both toasts |
| Scenarios.StaleSuccessDropsCurrentConnector | app/src/main/java/ua/vladprischepa/bluetoothchat/BluetoothChatManager.java:261-265 | A late success from a replaced connector is still promoted. The current connector is dropped without being cancelled |
| Scenarios.ReconnectSkipsNull | app/src/main/java/ua/vladprischepa/bluetoothchat/BluetoothChatManager.java:92-114 | If the new dial succeeds before the old session's read fails, connect while CONNECTED reaches CONNECTED on a new session with no NULL sent in between: only CONNECTING, DeviceName, CONNECTED. This order is the exception |
| Scenarios.ReconnectUsuallyStrandsNull | app/src/main/java/ua/vladprischepa/bluetoothchat/BluetoothChatManager.java:195-228 | In the usual order after connect while CONNECTED, the old session's read fails first: its restart cancels the new connector, whose failing dial then leaves NULL with a live listener after two toasts |
| Scenarios.StopThenReadFailureRestarts | app/src/main/java/ua/vladprischepa/bluetoothchat/BluetoothChatManager.java:303-310 | Stopping a live session closes its socket. The read failure that follows still runs onConnectionLost, which sends the toast and leaves NULL for LISTENING |

## Quirks of the code

The model reproduces these behaviours of the code as written:

- Cancelled workers are not silent. A cancelled connector's failing dial still calls
  `onConnectionFailed`, and a cancelled session's failing read still calls
  `onConnectionLost`. Neither handler checks whether its worker is current. See
  `Scenarios.CancelledConnectorStillReportsFailure`. The most common case is an
  incoming connection while dialling. It becomes the session, but the cancelled
  connector's dial then fails, `onConnectionFailed` cancels the new session, and
  that session's failing read leaves the manager in NULL with a live listener
  (`Scenarios.AcceptWhileDiallingStrandsNull`). If a session is blocked in
  `read` when `stop` closes its socket, the manager can listen again after `stop`
  (`Scenarios.StopThenReadFailureRestarts`).
- No callback checks for a stale worker. A connector that succeeds after being
  replaced is still promoted, and it nulls the current connector without cancelling
  it (`Scenarios.StaleSuccessDropsCurrentConnector`).
- `start` sets LISTENING only when it creates a listener. The failure handlers call
  `start` to "restart listening mode" (BluetoothChatManager.java:207). After a
  failed dial from LISTENING, though, the state stays NULL while the old listener
  runs, and that listener closes every socket it accepts
  (`Scenarios.DialFailureStrandsListener`).
- `connect` while CONNECTED closes the old session's socket, so that session's read
  fails and `onConnectionLost` runs `start`, which cancels the new connector. Its
  dial then fails and the manager ends in NULL with a live listener, after both
  toasts (`Scenarios.ReconnectUsuallyStrandsNull`). Only when the new dial finishes
  first do two sessions become CONNECTED one after the other with no NULL in
  between (`Scenarios.ReconnectSkipsNull`).
- In every state the sequential model reaches, `connect`'s guard on CONNECTING never
  skips a live connector (`Scenarios.ConnectNeverLeaksConnector`). In the code the
  failure handlers write NULL without the lock (:203, :222), so a concurrent
  `connect` can see NULL while a connector is still referenced and skip cancelling it.

## Left out

- Threads and interleavings: each transition is atomic. In the code the failure
  handlers set the state to NULL without the lock (BluetoothChatManager.java:203 and
  :222). The listener and session loops read the state without it (:303, :349). The
  stream write and its message happen outside the lock (:188-189, :317). These
  races are not modelled. On a successful dial the connector takes the lock twice,
  once to drop the connector reference and once in `onConnected` (:261-265); the
  model merges the two into one step. The worker constructors run inside synchronized methods,
  so their state changes are atomic with the transition that creates the worker.
- Android Bluetooth calls are not modelled: the adapter, RFCOMM socket creation,
  `cancelDiscovery` and the service UUIDs. They are foreign calls. Sockets are
  opaque ids. A listener's server socket and a connector's client socket are fresh
  ids issued when the worker is created.
- Creating a server or client socket can fail; the code logs the failure and
  continues with a null socket. This is not modelled: creation always succeeds.
- ChatManager.WriteOutputStream: a session whose `getInputStream` or
  `getOutputStream` failed keeps a null stream (BluetoothChatManager.java:285-294).
  A write then throws a `NullPointerException` at :316 that escapes
  `writeOutputStream`, and the read loop dies at :305. The model assumes both
  streams open, so its only `NullDereference` is the missing session at :189.
- `Handler`, `Message` and `Bundle` delivery are modelled only as appended events.
- The blocking `accept`, `connect` and `read` calls are not modelled, nor the loop
  conditions the listener and the session check on the state. Their completions
  are the transitions `AcceptDispatch`, `ConnectorSucceeded`, `ConnectorFailed`
  and the `ReadFailed` step. In `Lifecycle.Step` these callbacks may fire with any
  connector, socket or peer, at any point between two transitions, and with no
  live worker at all. This over-approximates which worker fires, with what
  arguments and when; it does not cover interleavings inside a transition. So
  `Inv` and `WritesWhileConnected` hold for every run in which each transition is
  atomic. The races listed in the first line of this section break that
  atomicity, and the runs they produce are not covered. The steps also admit
  runs the code cannot produce.
- `accept()` never returns null in the model, so the code's null check on the
  accepted socket has no counterpart.
- The session's received-data messages (`MESSAGE_READ`) and its buffer reuse are
  stream I/O and are not modelled. A read failure is modelled as `onConnectionLost`.
- Logging, and the `IOException`s swallowed on `close`, are not modelled.
- The field `mUpdatedState` is written but never read, so it is not modelled.
- The message-type constants and bundle keys (`MESSAGE_STATE_CHANGE`, `TOAST`, …)
  are not modelled. The event constructors stand for them.
- Whether a stream write succeeds is a parameter of `WriteOutputStream`. The model
  also fails a write on a closed socket; it does not model why other writes fail.

=== FILE: chat_manager.dfy ===
/**
 A sequential model of the chat manager: every synchronized method of the manager
 is one atomic transition on an immutable `Manager` record. Worker threads and
 sockets are opaque identities; cancelling a worker closes the socket it owns.
 */
module ChatManager {
  import opened Options
  import opened ChatStates

  /** Identity of a worker or of a socket it created, issued from one counter. */
  type Id = nat

  /** Payload bytes, passed through unmodified. */
  type Bytes = seq<bv8>

  /** A remote device: the address dialled and the name reported to the UI. */
  datatype Device = Device(address: string, name: string)

  /** The outbound connection attempt (a `ConnectionThread`) and the client socket it created. */
  datatype Connector = Connector(id: Id, socket: Id, device: Device)

  /** The inbound listener (an `AcceptThread`) and its server socket. */
  datatype Listener = Listener(id: Id, serverSocket: Id)

  /** The active session (a `ConnectionFinishedThread`) over a connected socket. */
  datatype Session = Session(id: Id, socket: Id)

  /** What the manager sends to its handler, in order. */
  datatype Event =
    | StateChange(state: ChatState)
    | DeviceName(name: string)
    | Toast(message: string)
    | Written(bytes: Bytes)

  const CONNECT_FAILED_TOAST: string := "Unable to connect device"
  const CONNECTION_LOST_TOAST: string := "Device connection was lost"

  datatype Manager = Manager(
    state: ChatState,
    connector: Option<Connector>,
    listener: Option<Listener>,
    session: Option<Session>,
    cancelled: set<Id>,   // workers whose cancel() has run
    closed: set<Id>,      // sockets that have been closed
    events: seq<Event>,
    next: Id)             // every id below this one has been issued

  // ---------------------------------------------------------------------------
  // Worker references as sets, and the invariant of reachable managers

  function ConnectorIds(m: Manager): set<Id> {
    if m.connector.Some? then {m.connector.value.id} else {}
  }

  function ListenerIds(m: Manager): set<Id> {
    if m.listener.Some? then {m.listener.value.id} else {}
  }

  function SessionIds(m: Manager): set<Id> {
    if m.session.Some? then {m.session.value.id} else {}
  }

  /** Ids of the workers the manager currently references. */
  function HeldIds(m: Manager): set<Id> {
    ConnectorIds(m) + ListenerIds(m) + SessionIds(m)
  }

  function ConnectorSockets(m: Manager): set<Id> {
    if m.connector.Some? then {m.connector.value.socket} else {}
  }

  function ListenerSockets(m: Manager): set<Id> {
    if m.listener.Some? then {m.listener.value.serverSocket} else {}
  }

  function SessionSockets(m: Manager): set<Id> {
    if m.session.Some? then {m.session.value.socket} else {}
  }

  /** Sockets owned by the workers the manager currently references. */
  function HeldSockets(m: Manager): set<Id> {
    ConnectorSockets(m) + ListenerSockets(m) + SessionSockets(m)
  }

  /** The state most recently announced to the handler, if any. */
  function LastAnnounced(events: seq<Event>): Option<ChatState>
  {
    if |events| == 0 then None
    else if events[|events| - 1].StateChange? then Some(events[|events| - 1].state)
    else LastAnnounced(events[..|events| - 1])
  }

  /** The shape of the worker references each state allows. */
  predicate Consistent(m: Manager) {
    && (m.state == Connected <==> m.session.Some?)
    && (m.state == Connected ==> m.listener.None?)
    && (m.connector.Some? ==> m.state == Connecting)
    && (m.state == Listening ==> m.listener.Some?)
  }

  /** Referenced workers are distinct, issued and not cancelled; cancelled ids were issued. */
  predicate IdsIssued(m: Manager) {
    && (m.connector.Some? && m.listener.Some? ==> m.connector.value.id != m.listener.value.id)
    && (m.connector.Some? && m.session.Some? ==> m.connector.value.id != m.session.value.id)
    && (m.listener.Some? && m.session.Some? ==> m.listener.value.id != m.session.value.id)
    && (m.connector.Some? ==> Live(m, m.connector.value.id))
    && (m.listener.Some? ==> Live(m, m.listener.value.id))
    && (m.session.Some? ==> Live(m, m.session.value.id))
    && (forall id | id in m.cancelled :: id < m.next)
  }

  /** `id` has been issued and its worker not cancelled. */
  predicate Live(m: Manager, id: Id) {
    id < m.next && id !in m.cancelled
  }

  /** The handler's view of the state agrees with the state. */
  predicate Announced(m: Manager) {
    match LastAnnounced(m.events)
    case None => m.state == Null
    case Some(s) => s == m.state
  }

  predicate Inv(m: Manager) {
    Consistent(m) && IdsIssued(m) && Announced(m)
  }

  /** A freshly constructed manager: no workers, state NULL, nothing sent. */
  function Init(): (m: Manager)
    ensures Inv(m)
    ensures m.state == Null && HeldIds(m) == {} && m.events == []
  {
    Manager(Null, None, None, None, {}, {}, [], 0)
  }

  /** The published state code. */
  function GetState(m: Manager): (code: int)
    ensures 100 <= code <= 103
    ensures FromCode(code) == Some(m.state)
  {
    Code(m.state)
  }

  // ---------------------------------------------------------------------------
  // Building blocks: cancel-and-null, worker construction, state announcement

  /** Closes the connector's socket and drops the reference; nothing else changes. */
  function CancelConnector(m: Manager): (r: Manager)
    ensures r.connector.None?
    ensures r.cancelled == m.cancelled + ConnectorIds(m) && r.closed == m.closed + ConnectorSockets(m)
    ensures r.(connector := m.connector, cancelled := m.cancelled, closed := m.closed) == m
    ensures IdsIssued(m) ==> IdsIssued(r)
  {
    match m.connector
    case None => m
    case Some(c) => m.(connector := None, cancelled := m.cancelled + {c.id}, closed := m.closed + {c.socket})
  }

  /** Closes the session's socket and drops the reference; nothing else changes. */
  function CancelSession(m: Manager): (r: Manager)
    ensures r.session.None?
    ensures r.cancelled == m.cancelled + SessionIds(m) && r.closed == m.closed + SessionSockets(m)
    ensures r.(session := m.session, cancelled := m.cancelled, closed := m.closed) == m
    ensures IdsIssued(m) ==> IdsIssued(r)
  {
    match m.session
    case None => m
    case Some(s) => m.(session := None, cancelled := m.cancelled + {s.id}, closed := m.closed + {s.socket})
  }

  /** Closes the listener's server socket and drops the reference; nothing else changes. */
  function CancelListener(m: Manager): (r: Manager)
    ensures r.listener.None?
    ensures r.cancelled == m.cancelled + ListenerIds(m) && r.closed == m.closed + ListenerSockets(m)
    ensures r.(listener := m.listener, cancelled := m.cancelled, closed := m.closed) == m
    ensures IdsIssued(m) ==> IdsIssued(r)
  {
    match m.listener
    case None => m
    case Some(l) => m.(listener := None, cancelled := m.cancelled + {l.id}, closed := m.closed + {l.serverSocket})
  }

  /** Cancels and drops every referenced worker; nothing else changes. */
  function CancelAll(m: Manager): (r: Manager)
    ensures r.connector.None? && r.listener.None? && r.session.None?
    ensures r.cancelled == m.cancelled + HeldIds(m) && r.closed == m.closed + HeldSockets(m)
    ensures r.(connector := m.connector, listener := m.listener, session := m.session,
               cancelled := m.cancelled, closed := m.closed) == m
    ensures IdsIssued(m) ==> IdsIssued(r)
  {
    CancelListener(CancelSession(CancelConnector(m)))
  }

  /** A new listener opens a server socket and sets the state to LISTENING. */
  function SpawnListener(m: Manager): (r: Manager)
    ensures r.listener.Some? && r.state == Listening
    ensures m.next <= r.listener.value.id < r.next && m.next <= r.listener.value.serverSocket < r.next
    ensures r.listener.value.id != r.listener.value.serverSocket
    ensures r.(listener := m.listener, state := m.state, next := m.next) == m
    ensures IdsIssued(m) ==> IdsIssued(r)
  {
    m.(listener := Some(Listener(m.next, m.next + 1)), state := Listening, next := m.next + 2)
  }

  /** A new connector creates a client socket and sets the state to CONNECTING. */
  function SpawnConnector(m: Manager, device: Device): (r: Manager)
    ensures r.connector.Some? && r.connector.value.device == device && r.state == Connecting
    ensures m.next <= r.connector.value.id < r.next && m.next <= r.connector.value.socket < r.next
    ensures r.connector.value.id != r.connector.value.socket
    ensures r.(connector := m.connector, state := m.state, next := m.next) == m
    ensures IdsIssued(m) ==> IdsIssued(r)
  {
    m.(connector := Some(Connector(m.next, m.next + 1, device)), state := Connecting, next := m.next + 2)
  }

  /** A new session takes over a connected socket and sets the state to CONNECTED. */
  function SpawnSession(m: Manager, socket: Id): (r: Manager)
    ensures r.session.Some? && r.session.value.socket == socket && r.state == Connected
    ensures m.next <= r.session.value.id < r.next
    ensures r.(session := m.session, state := m.state, next := m.next) == m
    ensures IdsIssued(m) ==> IdsIssued(r)
  {
    m.(session := Some(Session(m.next, socket)), state := Connected, next := m.next + 1)
  }

  /** Sends the current state to the handler; only the log changes. */
  function UpdateState(m: Manager): (r: Manager)
    ensures r.(events := m.events) == m
    ensures m.events < r.events && LastAnnounced(r.events) == Some(m.state)
  {
    m.(events := m.events + [StateChange(m.state)])
  }

  function Send(m: Manager, e: Event): Manager {
    m.(events := m.events + [e])
  }

  // ---------------------------------------------------------------------------
  // The synchronized operations

  /** Drops the connector and the session and makes sure a listener runs. */
  function Start(m: Manager): (r: Manager)
    ensures r.connector.None? && r.session.None? && r.listener.Some?
    ensures r.cancelled == m.cancelled + ConnectorIds(m) + SessionIds(m)
    ensures r.closed == m.closed + ConnectorSockets(m) + SessionSockets(m)
    ensures m.listener.Some? ==> r.listener == m.listener && r.state == m.state && r.next == m.next
    ensures m.listener.None? ==> r.state == Listening && m.next <= r.listener.value.id < r.next
    ensures m.listener.None? ==> m.next <= r.listener.value.serverSocket < r.next
    ensures r.events == m.events + [StateChange(r.state)]
    ensures Inv(m) ==> Inv(r)
  {
    var dropped := CancelSession(CancelConnector(m));
    var listening := if dropped.listener.None? then SpawnListener(dropped) else dropped;
    UpdateState(listening)
  }

  /** Starts dialling `device`; the listener keeps running. */
  function Connect(m: Manager, device: Device): (r: Manager)
    ensures r.listener == m.listener
    ensures r.session.None? && r.state == Connecting
    ensures r.connector.Some? && r.connector.value.device == device
    ensures m.next <= r.connector.value.id < r.next
    ensures m.next <= r.connector.value.socket < r.next
    ensures r.cancelled == m.cancelled + SessionIds(m) + (if m.state == Connecting then ConnectorIds(m) else {})
    ensures r.closed == m.closed + SessionSockets(m) + (if m.state == Connecting then ConnectorSockets(m) else {})
    ensures r.events == m.events + [StateChange(Connecting)]
    ensures Inv(m) ==> Inv(r)
  {
    var m1 := if m.state == Connecting then CancelConnector(m) else m;
    var m2 := CancelSession(m1);
    UpdateState(SpawnConnector(m2, device))
  }

  /** Promotes a connected socket to the one active session. */
  function OnConnected(m: Manager, socket: Id, device: Device): (r: Manager)
    ensures r.state == Connected
    ensures r.connector.None? && r.listener.None? && r.session.Some?
    ensures r.session.value.socket == socket
    ensures m.next <= r.session.value.id < r.next
    ensures r.cancelled == m.cancelled + HeldIds(m)
    ensures r.closed == m.closed + HeldSockets(m)
    ensures r.events == m.events + [DeviceName(device.name), StateChange(Connected)]
    ensures Inv(m) ==> Inv(r)
  {
    var m1 := SpawnSession(CancelAll(m), socket);
    UpdateState(Send(m1, DeviceName(device.name)))
  }

  /** Cancels every worker and returns to NULL. */
  function Stop(m: Manager): (r: Manager)
    ensures r.connector.None? && r.listener.None? && r.session.None?
    ensures r.state == Null
    ensures r.cancelled == m.cancelled + HeldIds(m)
    ensures r.closed == m.closed + HeldSockets(m)
    ensures r.next == m.next
    ensures r.events == m.events + [StateChange(Null)]
    ensures Inv(m) ==> Inv(r)
  {
    UpdateState(CancelAll(m).(state := Null))
  }

  /** The manager after an operation, or the null dereference of a missing session. */
  datatype Outcome = Done(after: Manager) | NullDereference

  /**
   Writes `out` through the session when CONNECTED. `delivered` is the outcome of
   the stream write; a write on a closed socket fails as well. A failed write is
   swallowed.
   */
  function WriteOutputStream(m: Manager, out: Bytes, delivered: bool): (r: Outcome)
    ensures m.state != Connected ==> r == Done(m)
    ensures r.NullDereference? <==> m.state == Connected && m.session.None?
    ensures Inv(m) ==> r.Done?
    ensures r.Done? ==> r.after == m || r.after == m.(events := m.events + [Written(out)])
    ensures r.Done? && r.after != m ==> m.state == Connected && delivered && m.session.Some? && m.session.value.socket !in m.closed
    ensures m.state == Connected && m.session.Some? && delivered && m.session.value.socket !in m.closed
            ==> r == Done(m.(events := m.events + [Written(out)]))
    ensures Inv(m) && r.Done? ==> Inv(r.after)
  {
    if m.state != Connected then Done(m)
    else
      match m.session
      case None => NullDereference
      case Some(s) =>
        if delivered && s.socket !in m.closed then Done(Send(m, Written(out))) else Done(m)
  }

  // ---------------------------------------------------------------------------
  // The failure handlers (not synchronized in the code; atomic here)

  /** Reports `message`, announces NULL, then runs `Start`. */
  function RestartAfterFailure(m: Manager, message: string): (r: Manager)
    ensures r.connector.None? && r.session.None? && r.listener.Some?
    ensures r.state == (if m.listener.Some? then Null else Listening)
    ensures m.listener.Some? ==> r.listener == m.listener
    ensures r.cancelled == m.cancelled + ConnectorIds(m) + SessionIds(m)
    ensures r.closed == m.closed + ConnectorSockets(m) + SessionSockets(m)
    ensures m.listener.None? ==> m.next <= r.listener.value.id < r.next
    ensures m.listener.None? ==> m.next <= r.listener.value.serverSocket < r.next
    ensures m.listener.Some? ==> r.next == m.next
    ensures r.events == m.events + [Toast(message), StateChange(Null), StateChange(r.state)]
    ensures Inv(m) ==> Inv(r)
  {
    var reported := Send(m, Toast(message));
    Start(UpdateState(reported.(state := Null)))
  }

  /** The dial failed: toast "Unable to connect device", NULL, restart listening. */
  function OnConnectionFailed(m: Manager): (r: Manager)
    ensures r.connector.None? && r.session.None? && r.listener.Some?
    ensures r.state == (if m.listener.Some? then Null else Listening)
    ensures m.listener.Some? ==> r.listener == m.listener
    ensures r.cancelled == m.cancelled + ConnectorIds(m) + SessionIds(m)
    ensures r.closed == m.closed + ConnectorSockets(m) + SessionSockets(m)
    ensures m.listener.None? ==> m.next <= r.listener.value.id < r.next
    ensures m.listener.None? ==> m.next <= r.listener.value.serverSocket < r.next
    ensures m.listener.Some? ==> r.next == m.next
    ensures r.events == m.events + [Toast(CONNECT_FAILED_TOAST), StateChange(Null), StateChange(r.state)]
    ensures Inv(m) ==> Inv(r)
  {
    RestartAfterFailure(m, CONNECT_FAILED_TOAST)
  }

  /** The session's stream broke: toast "Device connection was lost", NULL, restart listening. */
  function OnConnectionLost(m: Manager): (r: Manager)
    ensures r.connector.None? && r.session.None? && r.listener.Some?
    ensures r.state == (if m.listener.Some? then Null else Listening)
    ensures m.listener.Some? ==> r.listener == m.listener
    ensures r.cancelled == m.cancelled + ConnectorIds(m) + SessionIds(m)
    ensures r.closed == m.closed + ConnectorSockets(m) + SessionSockets(m)
    ensures m.listener.None? ==> m.next <= r.listener.value.id < r.next
    ensures m.listener.None? ==> m.next <= r.listener.value.serverSocket < r.next
    ensures m.listener.Some? ==> r.next == m.next
    ensures r.events == m.events + [Toast(CONNECTION_LOST_TOAST), StateChange(Null), StateChange(r.state)]
    ensures Inv(m) ==> Inv(r)
  {
    RestartAfterFailure(m, CONNECTION_LOST_TOAST)
  }
}

=== FILE: chat_states.dfy ===
/** The lifecycle states of the chat manager and the integer codes it publishes for them. */
module ChatStates {
  import opened Options

  /** Exactly one of these holds at any time. */
  datatype ChatState = Null | Listening | Connecting | Connected

  /** The code published for a state: STATE_NULL = 100 up to STATE_CONNECTED = 103. */
  function Code(s: ChatState): (c: int)
    ensures 100 <= c <= 103
    ensures c == 100 <==> s == Null
    ensures c == 101 <==> s == Listening
    ensures c == 102 <==> s == Connecting
    ensures c == 103 <==> s == Connected
  {
    match s
    case Null => 100
    case Listening => 101
    case Connecting => 102
    case Connected => 103
  }

  /** Reads a published code back; codes outside 100..103 name no state. */
  function FromCode(c: int): (r: Option<ChatState>)
    ensures r.Some? <==> 100 <= c <= 103
  {
    if c == 100 then Some(Null)
    else if c == 101 then Some(Listening)
    else if c == 102 then Some(Connecting)
    else if c == 103 then Some(Connected)
    else None
  }

  /** Codes and states are in one-to-one correspondence. */
  lemma CodeRoundTrip(s: ChatState, c: int)
    ensures FromCode(Code(s)) == Some(s)
    ensures FromCode(c) == Some(s) <==> Code(s) == c
  {
  }
}

=== FILE: lifecycle.dfy ===
/**
 Sequences of transitions: the external commands and the worker callbacks, applied
 one at a time from a fresh manager. Every manager reached this way satisfies `Inv`, and
 the handler never sees a `Written` event unless CONNECTED was the last state it was
 told about.
 */
module Lifecycle {
  import opened Options
  import opened ChatStates
  import opened ChatManager
  import opened Workers

  /**
   One atomic step: an external call or a worker's callback. A callback step may
   name any connector, socket or peer, and `ReadFailed` may fire with no session,
   so the steps over-approximate which worker fires, with what arguments and when.
   They do not cover interleavings inside a transition: what holds along every
   run holds for the code only where each transition is atomic.
   */
  datatype Command =
    | CallStart
    | CallConnect(device: Device)
    | CallStop
    | CallWrite(out: Bytes, delivered: bool)
    | DialSucceeded(connector: Connector)
    | DialFailed(connector: Connector)
    | Accepted(socket: Id, peer: Device)
    | ReadFailed

  function Step(m: Manager, cmd: Command): (r: Outcome)
    ensures Inv(m) ==> r.Done? && Inv(r.after)
    ensures r.Done? ==> m.events <= r.after.events && m.cancelled <= r.after.cancelled && m.next <= r.after.next
  {
    match cmd
    case CallStart => Done(Start(m))
    case CallConnect(d) => Done(Connect(m, d))
    case CallStop => Done(Stop(m))
    case CallWrite(out, delivered) => WriteOutputStream(m, out, delivered)
    case DialSucceeded(c) => Done(ConnectorSucceeded(m, c))
    case DialFailed(c) => Done(ConnectorFailed(m, c))
    case Accepted(socket, peer) => Done(AcceptDispatch(m, socket, peer))
    case ReadFailed => Done(OnConnectionLost(m))
  }

  /** Applies `cmds` in order; stops at a null dereference. */
  function Run(m: Manager, cmds: seq<Command>): (r: Outcome)
    ensures Inv(m) ==> r.Done? && Inv(r.after)
    ensures r.Done? ==> m.events <= r.after.events && m.cancelled <= r.after.cancelled
    decreases |cmds|
  {
    if |cmds| == 0 then Done(m)
    else
      match Step(m, cmds[0])
      case NullDereference => NullDereference
      case Done(m1) => Run(m1, cmds[1..])
  }

  /** Every `Written` event comes while the last announced state is CONNECTED. */
  predicate WritesWhileConnected(events: seq<Event>) {
    forall i | 0 <= i < |events| && events[i].Written? :: LastAnnounced(events[..i]) == Some(Connected)
  }

  /** Appending events keeps the property when each appended write is announced as CONNECTED. */
  lemma {:induction false} AppendKeepsWrites(e: seq<Event>, tail: seq<Event>)
    requires WritesWhileConnected(e)
    requires forall k | 0 <= k < |tail| && tail[k].Written? :: LastAnnounced(e + tail[..k]) == Some(Connected)
    ensures WritesWhileConnected(e + tail)
  {
    var full := e + tail;
    forall i | 0 <= i < |full| && full[i].Written?
      ensures LastAnnounced(full[..i]) == Some(Connected)
    {
      if i < |e| {
        assert full[..i] == e[..i];
      } else {
        var k := i - |e|;
        assert full[i] == tail[k];
        assert full[..i] == e + tail[..k];
      }
    }
  }

  /** Appending events that contain no write keeps the property. */
  lemma AppendNoWrites(e: seq<Event>, tail: seq<Event>)
    requires WritesWhileConnected(e)
    requires forall k | 0 <= k < |tail| :: !tail[k].Written?
    ensures WritesWhileConnected(e + tail)
  {
    AppendKeepsWrites(e, tail);
  }

  /** A write keeps the handler's writes inside CONNECTED. */
  lemma WriteKeepsWrites(m: Manager, out: Bytes, delivered: bool)
    requires Inv(m) && WritesWhileConnected(m.events)
    ensures WriteOutputStream(m, out, delivered).Done?
    ensures WritesWhileConnected(WriteOutputStream(m, out, delivered).after.events)
  {
    var r := WriteOutputStream(m, out, delivered).after;
    if r.events != m.events {
      assert r.events == m.events + [Written(out)];
      assert m.state == Connected;
      assert [Written(out)][..0] == [];
      assert m.events + [] == m.events;
      AppendKeepsWrites(m.events, [Written(out)]);
    }
  }

  /** One step keeps the handler's writes inside CONNECTED. */
  lemma StepKeepsWrites(m: Manager, cmd: Command)
    requires Inv(m) && WritesWhileConnected(m.events)
    ensures Step(m, cmd).Done? && WritesWhileConnected(Step(m, cmd).after.events)
  {
    var r := Step(m, cmd).after;
    match cmd
    case CallWrite(out, delivered) =>
      WriteKeepsWrites(m, out, delivered);
    case Accepted(socket, peer) =>
      if Promotes(m.state) {
        AppendNoWrites(m.events, [DeviceName(peer.name), StateChange(Connected)]);
      }
    case CallStart =>
      AppendNoWrites(m.events, [StateChange(r.state)]);
    case CallConnect(d) =>
      AppendNoWrites(m.events, [StateChange(Connecting)]);
    case CallStop =>
      AppendNoWrites(m.events, [StateChange(Null)]);
    case DialSucceeded(c) =>
      AppendNoWrites(m.events, [DeviceName(c.device.name), StateChange(Connected)]);
    case DialFailed(c) =>
      AppendNoWrites(m.events, [Toast(CONNECT_FAILED_TOAST), StateChange(Null), StateChange(r.state)]);
    case ReadFailed =>
      AppendNoWrites(m.events, [Toast(CONNECTION_LOST_TOAST), StateChange(Null), StateChange(r.state)]);
  }

  /**
   Any run from a consistent manager keeps the handler's writes inside CONNECTED.
   This rests on each write being one atomic step. In the code the stream write
   and its message happen outside the lock, so a concurrent `stop` can announce
   NULL before the handler receives the written bytes.
   */
  lemma {:induction false} RunKeepsWrites(m: Manager, cmds: seq<Command>)
    requires Inv(m) && WritesWhileConnected(m.events)
    ensures WritesWhileConnected(Run(m, cmds).after.events)
    decreases |cmds|
  {
    if |cmds| > 0 {
      StepKeepsWrites(m, cmds[0]);
      RunKeepsWrites(Step(m, cmds[0]).after, cmds[1..]);
    }
  }

  /**
   A run from a fresh manager never hits the null dereference, ends in a consistent
   manager, and its log announces CONNECTED before every write.
   */
  lemma ReachableManagers(cmds: seq<Command>)
    ensures Run(Init(), cmds).Done? && Inv(Run(Init(), cmds).after)
    ensures WritesWhileConnected(Run(Init(), cmds).after.events)
  {
    RunKeepsWrites(Init(), cmds);
  }
}

=== FILE: options.dfy ===
/** Optional values, used for the manager's nullable worker references. */
module Options {

  datatype Option<+T> = None | Some(value: T)
}

=== FILE: scenarios.dfy ===
/**
 Properties that relate several transitions: teardown is idempotent, a live listener
 is reused, and the behaviours that follow from the callbacks not checking whether
 their worker is still current.
 */
module Scenarios {
  import opened Options
  import opened ChatStates
  import opened ChatManager
  import opened Workers

  /** A second `Stop` changes nothing but announcing NULL once more. */
  lemma StopIdempotent(m: Manager)
    ensures var once := Stop(m); var twice := Stop(once);
      && twice.(events := once.events) == once
      && twice.events == once.events + [StateChange(Null)]
  {
  }

  /** `start` while LISTENING reuses the listener: no second server socket is opened. */
  lemma StartReusesListener(m: Manager)
    requires Inv(m) && m.state == Listening
    ensures Start(m).listener == m.listener
    ensures Start(m).state == Listening
    ensures Start(m).next == m.next
    ensures Start(m).events == m.events + [StateChange(Listening)]
  {
  }

  /** In every consistent manager `connect` cancels the connector it replaces. */
  lemma ConnectNeverLeaksConnector(m: Manager, device: Device)
    requires Inv(m)
    ensures Connect(m, device).cancelled == m.cancelled + ConnectorIds(m) + SessionIds(m)
  {
  }

  /**
   A read failure on the active session reports the loss, announces NULL and
   comes back LISTENING on a fresh listener.
   */
  lemma ReadFailureRestartsListening(m: Manager)
    requires Inv(m) && m.state == Connected
    ensures var r := OnConnectionLost(m);
      && r.state == Listening
      && r.session.None? && r.connector.None?
      && r.listener.Some? && Live(r, r.listener.value.id) && m.next <= r.listener.value.id
      && m.session.value.id in r.cancelled
      && r.events == m.events + [Toast(CONNECTION_LOST_TOAST), StateChange(Null), StateChange(Listening)]
  {
  }

  /**
   A dial started from LISTENING that fails leaves the listener running but the
   state NULL; the listener then closes every socket it accepts, and a further
   `start` leaves the state NULL.
   */
  lemma DialFailureStrandsListener(m: Manager, device: Device, socket: Id, peer: Device)
    requires Inv(m) && m.state == Listening
    ensures var dialling := Connect(m, device);
      var failed := ConnectorFailed(dialling, dialling.connector.value);
      && failed.state == Null
      && failed.listener == m.listener
      && AcceptDispatch(failed, socket, peer) == failed.(closed := failed.closed + {socket})
      && Start(failed).state == Null
  {
  }

  /**
   Replacing a connector while CONNECTING cancels it, but its failing dial still
   runs the failure handler: the toast is shown and the replacement is cancelled.
   */
  lemma CancelledConnectorStillReportsFailure(m: Manager, device: Device)
    requires Inv(m) && m.state == Connecting && m.connector.Some?
    ensures var previous := m.connector.value;
      var replaced := Connect(m, device);
      var r := ConnectorFailed(replaced, previous);
      && previous.id in replaced.cancelled
      && replaced.connector.value.id in r.cancelled
      && r.connector.None?
      && r.events == replaced.events + [Toast(CONNECT_FAILED_TOAST), StateChange(Null), StateChange(r.state)]
  {
  }

  /**
   A socket accepted while CONNECTING becomes the session, and `onConnected`
   cancels the connector. That connector's dial still fails and runs the failure
   handler, whose `start` cancels the new session. The session's read then fails
   too, and the manager ends in NULL with a live listener after both toasts.
   */
  lemma AcceptWhileDiallingStrandsNull(m: Manager, socket: Id, peer: Device)
    requires Inv(m) && m.state == Connecting && m.connector.Some? && m.listener.Some?
    ensures var dialled := m.connector.value;
      var accepted := AcceptDispatch(m, socket, peer);
      var failed := ConnectorFailed(accepted, dialled);
      var r := OnConnectionLost(failed);
      && dialled.id in accepted.cancelled
      && accepted.state == Connected
      && accepted.session.value.id in failed.cancelled
      && failed.state == Listening
      && r.state == Null
      && r.listener.Some? && r.listener == failed.listener
      && r.events == m.events + [DeviceName(peer.name), StateChange(Connected),
                                 Toast(CONNECT_FAILED_TOAST), StateChange(Null), StateChange(Listening),
                                 Toast(CONNECTION_LOST_TOAST), StateChange(Null), StateChange(Null)]
  {
  }

  /**
   A dial that succeeds after its connector was replaced is still promoted, and
   the current connector is dropped without being cancelled.
   */
  lemma StaleSuccessDropsCurrentConnector(m: Manager, stale: Connector)
    requires Inv(m) && m.connector.Some? && stale.id != m.connector.value.id
    ensures var r := ConnectorSucceeded(m, stale);
      && r.state == Connected
      && r.connector.None?
      && m.connector.value.id !in r.cancelled
  {
  }

  /**
   `connect` while CONNECTED reaches CONNECTED on a new session with no NULL
   announced in between, provided the new dial succeeds before the old session's
   read fails on its closed socket. That is the exception; the usual order is
   `ReconnectUsuallyStrandsNull`.
   */
  lemma ReconnectSkipsNull(m: Manager, device: Device)
    requires Inv(m) && m.state == Connected
    ensures var dialling := Connect(m, device);
      var r := ConnectorSucceeded(dialling, dialling.connector.value);
      && m.session.value.id in r.cancelled
      && r.session.Some? && r.session.value.id != m.session.value.id
      && r.events == m.events + [StateChange(Connecting), DeviceName(device.name), StateChange(Connected)]
  {
  }

  /**
   `connect` while CONNECTED closes the old session's socket, so its blocked read
   fails and `onConnectionLost` runs. Its `start` cancels the new connector, whose
   dial then fails and runs `onConnectionFailed`: two toasts, and the manager ends
   in NULL with a live listener.
   */
  lemma ReconnectUsuallyStrandsNull(m: Manager, device: Device)
    requires Inv(m) && m.state == Connected
    ensures var dialling := Connect(m, device);
      var lost := OnConnectionLost(dialling);
      var r := ConnectorFailed(lost, dialling.connector.value);
      && m.session.value.socket in dialling.closed
      && dialling.connector.value.id in lost.cancelled
      && r.state == Null
      && r.listener.Some? && r.listener == lost.listener
      && r.events == m.events + [StateChange(Connecting),
                                 Toast(CONNECTION_LOST_TOAST), StateChange(Null), StateChange(Listening),
                                 Toast(CONNECT_FAILED_TOAST), StateChange(Null), StateChange(Null)]
  {
  }

  /**
   `stop` on a live session closes its socket, so its blocked read fails and the
   session reports the connection as lost: the manager leaves NULL and listens again.
   */
  lemma StopThenReadFailureRestarts(m: Manager)
    requires Inv(m) && m.state == Connected
    ensures var stopped := Stop(m);
      var r := OnConnectionLost(stopped);
      && m.session.value.socket in stopped.closed
      && r.state == Listening
      && r.listener.Some?
      && r.events == m.events + [StateChange(Null), Toast(CONNECTION_LOST_TOAST), StateChange(Null), StateChange(Listening)]
  {
  }
}

=== FILE: workers.dfy ===
/**
 The points where the manager's worker threads call back into it: the outcome of a
 connector's dial, the listener's dispatch of an accepted socket, and a session's
 read failure. None of them checks whether the calling worker is still the one the
 manager references.
 */
module Workers {
  import opened Options
  import opened ChatStates
  import opened ChatManager

  /**
   The dial of `c` succeeded: the connector reference is dropped without being
   cancelled (whichever connector it holds), then `c`'s socket is promoted.
   */
  function ConnectorSucceeded(m: Manager, c: Connector): (r: Manager)
    ensures r.state == Connected
    ensures r.connector.None? && r.listener.None? && r.session.Some?
    ensures r.session.value.socket == c.socket
    ensures m.next <= r.session.value.id < r.next
    ensures r.cancelled == m.cancelled + ListenerIds(m) + SessionIds(m)
    ensures r.closed == m.closed + ListenerSockets(m) + SessionSockets(m)
    ensures r.events == m.events + [DeviceName(c.device.name), StateChange(Connected)]
    ensures Inv(m) ==> Inv(r)
  {
    OnConnected(m.(connector := None), c.socket, c.device)
  }

  /** The dial of `c` failed: its socket is closed, then the manager restarts. */
  function ConnectorFailed(m: Manager, c: Connector): (r: Manager)
    ensures r.connector.None? && r.session.None? && r.listener.Some?
    ensures r.state == (if m.listener.Some? then Null else Listening)
    ensures m.listener.Some? ==> r.listener == m.listener
    ensures r.cancelled == m.cancelled + ConnectorIds(m) + SessionIds(m)
    ensures r.closed == m.closed + {c.socket} + ConnectorSockets(m) + SessionSockets(m)
    ensures m.listener.None? ==> m.next <= r.listener.value.id < r.next
    ensures m.listener.None? ==> m.next <= r.listener.value.serverSocket < r.next
    ensures m.listener.Some? ==> r.next == m.next
    ensures r.events == m.events + [Toast(CONNECT_FAILED_TOAST), StateChange(Null), StateChange(r.state)]
    ensures Inv(m) ==> Inv(r)
  {
    OnConnectionFailed(m.(closed := m.closed + {c.socket}))
  }

  /** Whether the listener hands an accepted socket on in this state. */
  predicate Promotes(s: ChatState) {
    s == Listening || s == Connecting
  }

  /**
   The listener accepted `socket` from `peer`. In LISTENING or CONNECTING the
   socket becomes the session; in NULL or CONNECTED it is closed and nothing else
   changes.
   */
  function AcceptDispatch(m: Manager, socket: Id, peer: Device): (r: Manager)
    ensures Promotes(m.state) <==> r.state == Connected && r.session.Some? && r.session.value.socket == socket
                                   && r.events == m.events + [DeviceName(peer.name), StateChange(Connected)]
    ensures Promotes(m.state) ==> r.connector.None? && r.listener.None?
                                  && r.cancelled == m.cancelled + HeldIds(m)
                                  && r.closed == m.closed + HeldSockets(m)
                                  && m.next <= r.session.value.id < r.next
    ensures !Promotes(m.state) ==> r == m.(closed := m.closed + {socket})
    ensures Inv(m) ==> Inv(r)
  {
    match m.state
    case Listening => OnConnected(m, socket, peer)
    case Connecting => OnConnected(m, socket, peer)
    case Null => m.(closed := m.closed + {socket})
    case Connected => m.(closed := m.closed + {socket})
  }
}
